=== FILE: README.md ===
# SD-lcm-tpu front end: model manager, size menu and seeds in Dafny

This project models the logic of `gr.py`, the Gradio front end of a Stable
Diffusion (LCM) text-to-image and image-to-image generator:

- **`ModelManager`** (`manager.dfy`). It is a class with the source's three
  fields: the current model name, the pipeline and the committed size. It also
  keeps an event log that stands for what the user is shown and what is
  printed. `change_model` is modelled branch by branch:
  - the first load, where the verdict of `pre_check` is ignored;
  - the switch to another model, gated by `pre_check`. Name and size are
    committed only after `change_lora` and `set_height_width` succeed.
    Otherwise the manager keeps its old pair, but the pipeline is not rolled
    back (see "Findings");
  - the call for the model already loaded, which only moves the pipeline's
    resolution.

  The exceptions that leave the call are modelled too: a KeyError for an
  unregistered model and an IndexError for a short size list.
- **`pre_check`** (`ModelManager.PreCheck`, with the specification in
  `artifacts.dfy`). The registry `model_path` is a map, and the file system is
  a set of regular files plus a set of other existing paths. Paths are built
  with POSIX `os.path.join`. The text encoder and the UNet must be files
  (`isfile`). The VAE needs its encoder and decoder paths to exist (`exists`).
- **`create_size`** (`size_menu.dfy`). It takes the distinct sizes, lists the
  squares, then `itertools.permutations(…, 2)`, and labels each pair
  `"{a}:{b}"` with the value `[a, b]`. A reader `ParseLabel` is the inverse of
  the labelling.
- **Seeds** (`seeds.dfy`). `seed_torch` normalises a seed modulo 2^32.
  `generate_image_from_text` passes exactly one seed to the pipeline.
- **Scenarios** (`scenarios.dfy`): calls on a fresh manager, proved from the
  method contracts alone.

The pipeline (`StableDiffusionPipeline`) is an outside collaborator. Here it
is a small class that records its model, scheduler and resolution. Its
`change_lora` and `set_height_width` either succeed or raise, as a `Faults`
argument says. A failed `change_lora` promises nothing about the pipeline: it
may be half swapped. A failed `set_height_width` keeps the model and the
scheduler, and promises nothing about the resolution.

Three behaviours of the code worth knowing:
- `random.randint(0, 1000000)` includes 1000000, so the drawn seed lies in
  [0, 1000000], not [0, 1000000).
- A failed swap is not shown to the user. `gr.Error(...)` is built but never
  raised (`gr.py:98`). Only `print(e)` runs, which is the `Printed` event.
- The manager's size is not updated on every request. The same-model call
  moves only the pipeline's resolution (`gr.py:104`), and
  `generate_image_from_text` never touches it.

## Model

| member | source | states |
|---|---|---|
| `SizeMenu.CreateSizeFacts` | gr.py:18-23 | For any arguments, with n distinct values: entry k is a square iff k < n. Every ordered pair over the arguments appears, exactly once, and no other pair appears. Every entry's value has two elements, and its label reads back to that value. |
| `SizeMenu.MenuFacts` | gr.py:19-23 | For any duplicate-free enumeration u of the set, so for whatever order Python iterates it: n·n entries. The first n entries are `[u[k], u[k]]`. Each entry's label is `"{a}:{b}"` of its own value `[a, b]`. Values and labels are pairwise distinct, and every pair over u occurs. |
| `SizeMenu.PairsFacts` | gr.py:20-22 | `square + rectangle` is n squares followed by off-diagonal pairs, n·n in all, duplicate-free, and its members are exactly u × u. |
| `SizeMenu.CreateSize` | gr.py:18-23 | `create_size(*xs)` with n distinct arguments has n·n entries. Every entry's value is a pair of arguments, and its label is `"{a}:{b}"` of that value. |
| `SizeMenu.Squares` | gr.py:21 | `[(s, s) for s in u]`: its members are exactly the diagonal of u × u, listed in the order of u, with no repeats when u has none. |
| `SizeMenu.Row` | gr.py:20 | The pairs of `permutations(u, 2)` with first position i and second position j ≥ from: one for each such j other than i. |
| `SizeMenu.Permutations2` | gr.py:20 | `permutations(u, 2)` from first position i onward has (n−i)·(n−1) pairs: positions are paired, not values. |
| `SizeMenu.Permutations2Members` | gr.py:20 | A pair is in `permutations(u, 2)` iff its components are elements of u and differ. |
| `SizeMenu.Permutations2Distinct` | gr.py:20 | `permutations(u, 2)` of a duplicate-free u has no repeated pair. |
| `SizeMenu.RowFacts` | gr.py:20 | One row of `permutations(u, 2)` pairs u[i] with every other element once: its length, no repeats, and its members. |
| `SizeMenu.Dedup` | gr.py:19 | `set(size_elements)` as an enumeration: no duplicates, and the same elements as the arguments. |
| `SizeMenu.CreateSizeIgnoresRepeats` | gr.py:19 | Adding an argument that is already present leaves the menu unchanged: duplicates collapse. |
| `SizeMenu.LabelRoundTrip` | gr.py:23 | Reading the label `f"{a}:{b}"` back gives `(a, b)`, negative numbers included. |
| `SizeMenu.LabelInjective` | gr.py:23 | Two pairs with the same label are the same pair. |
| `SizeMenu.IntToStringRoundTrip` | gr.py:23 | The decimal text Python prints for an integer reads back to that integer. |
| `SizeMenu.DefaultSizesLabels` | gr.py:25 | `SIZE = create_size(512, 768)`, enumerating 512 then 768, is `512:512`, `768:768`, `512:768`, `768:512` with matching values. |
| `Seeds.NormaliseSeed` | gr.py:28 | `seed % 4294967296` (Python floor modulo) lies in [0, 2^32) for every seed, negatives included. It is congruent to the seed, and it is the seed itself when the seed is already in range. |
| `Seeds.NormaliseSeedPeriodic` | gr.py:28 | Seeds that differ by a multiple of 2^32 normalise alike, and normalising twice changes nothing. |
| `Seeds.InferenceSeeds` | gr.py:116 | The `seeds` argument has exactly one element. It is the given seed when one is given, and otherwise a draw in [0, 1000000] inclusive. |
| `Artifacts.JoinFacts` | gr.py:45-49 | POSIX `os.path.join(a, b)`: an absolute b replaces a. Otherwise the result is a followed by b, with one '/' between them exactly when a is non-empty and does not already end in '/'. |
| `Artifacts.ModelDirFacts` | gr.py:45 | `os.path.join('models', 'basic', model)` is `models/basic/<model>`, or the id itself when it is absolute. |
| `Artifacts.MissingKinds` | gr.py:51-64 | The kinds pre_check warns about: at most three, and a kind is listed iff it was requested and its artifact is absent. |
| `Artifacts.MissingKindsExact` | gr.py:51-66 | Each missing kind is reported at most once. Nothing is reported iff every requested kind is present. |
| `Artifacts.OnlyRequestedKindsMatter` | gr.py:51-64 | Kinds not in `check_type` are never checked: file systems that agree on the requested kinds get the same verdict. |
| `Manager.ModelManager.PreCheck` | gr.py:43-66 | For an unregistered model: KeyError, raised before any check. Otherwise: passes iff no requested kind is missing, with one warning per missing kind in the order te, unet, vae. It changes no manager field. |
| `Manager.ModelManager.ChangeModel` | gr.py:68-105 | Dispatches on the source's three branches, and keeps the invariant: name and size are committed together, only with a pipeline, only for a registered model, and only for a size of two or more elements. |
| `Manager.ModelManager.FirstLoad` | gr.py:69-80 | With no pipeline, the pipeline is built even if `pre_check` fails; its warnings are still logged. After that, name = model, size = size, and the resolution is `(size[0], size[1])`; the call returns None. KeyError, IndexError or a failing resize leave name and size unset. |
| `Manager.ModelManager.Switch` | gr.py:82-101 | For another model, name and size are committed and `(model, size)` returned only if `pre_check` passes and the swap and the resize succeed. Otherwise the old pair is kept and returned. A failed `pre_check` never calls `change_lora`, and leaves the pipeline untouched. Once `change_lora` succeeds, the pipeline holds the new model with its old scheduler, even if the resize then raises. The exact warnings, infos, progress (40/80/100) and printed errors are stated. |
| `Manager.ModelManager.TrySwap` | gr.py:85-99 | The try block: the events up to the statement that raises, the pipeline holding the new model once `change_lora` succeeds, and name and size committed only when both calls succeed. |
| `Manager.ModelManager.SwitchInSync` | gr.py:82-101 | The switch with the name committed as soon as `change_lora` succeeds. Whenever the swap does not raise, the manager names the model the pipeline holds. Events, the pipeline's model, scheduler and resolution, the untouched pipeline after a failed `pre_check` or short size, and the KeyError case are those of `Switch`. |
| `Manager.ModelManager.TrySwapInSync` | gr.py:85-99 | The try block of the corrected switch: after a failing resize, the name is the new model and the size the old one; the pipeline holds the new model with its scheduler, and after both calls succeed it has the new resolution. |
| `Manager.ModelManager.SameModel` | gr.py:102-105 | For the current model: no `pre_check` and no swap. The pipeline resolution becomes `(size[0], size[1])`, `self.size` is not updated, and the previous pair is returned. |
| `Manager.ModelManager.constructor` | gr.py:37-41 | Start-up loads the first registered model at `[512, 512]` with scheduler `LCM`, and logs the warnings of its artifact check. |
| `Manager.Pipeline.constructor` | gr.py:71-76 | `StableDiffusionPipeline(basic_model, scheduler, height, width)` holds that model and scheduler at that resolution. |
| `Manager.Pipeline.SetHeightWidth` | gr.py:77 | The collaborator's `set_height_width`: when it does not raise, it records the resolution; it never changes the model or the scheduler. |
| `Manager.Pipeline.ChangeLora` | gr.py:88 | The collaborator's `change_lora`: when it does not raise, the pipeline holds the new model at an unchanged resolution. |
| `Scenarios.StartWithIncompleteModel` | gr.py:69-80 | A first model missing its UNet is loaded anyway, and the log holds the UNet warning. |
| `Scenarios.SwitchToIncompleteModel` | gr.py:82-84 | After start-up on A, asking for B without a UNet returns `(A, [512, 512])`, warns about B's UNet, and the pipeline still holds A. |
| `Scenarios.SwitchToCompleteModel` | gr.py:82-95 | After start-up on A, switching to a complete B returns `(B, [768, 512])`, and the pipeline holds B at 768×512. |
| `Scenarios.SwapFailureRollsBack` | gr.py:85-99 | If `change_lora` raises, `(A, [512, 512])` is returned, the manager keeps name A and size `[512, 512]`, and the last event is the printed error. |
| `Scenarios.ResizeFailureDesyncs` | gr.py:88-105 | If `change_lora` succeeds for B and `set_height_width` raises, the manager names A while the pipeline holds B. A later request for A takes the same-model branch, and the pipeline still holds B. |
| `Scenarios.ResizeFailureStaysInSync` | gr.py:82-101 | The same calls with the corrected switch: after the failing resize the manager names B at `[512, 512]`, and a later request for A swaps the pipeline back to A at 512×512. |
| `Scenarios.SameModelKeepsSize` | gr.py:102-105 | Asking for A again at 768×512 moves the pipeline to 768×512, while the manager keeps and returns `[512, 512]`. |

## Left out

- The Gradio layout, event wiring, queue (depth 10) and server launch (`gr.py:133-170`): presentation glue with no logic.
- The internals of `StableDiffusionPipeline` and its inference call (`gr.py:71-76`, `gr.py:108-117`). The `sd` module is not part of this model. The collaborator's constructor is taken never to raise.
- The image crop (`gr.py:118-121`). It uses float coordinates on a PIL image, and its `h, w = img_pil.size` swaps PIL's (width, height).
- The seeding side effects of `seed_torch` on `random`, `numpy`, `torch` and `PYTHONHASHSEED` (`gr.py:29-33`): global, foreign state. Only the modulus is modelled.
- `Seeds.InferenceSeeds`: the draw is nondeterministic, so uniformity of `random.randint` is not captured, only its range.
- `Seeds.InferenceSeeds`: the seed is an optional integer. The `gr.Number` input (`gr.py:146`, no precision) hands `generate_image_from_text` a float, which `gr.py:116` passes on unchanged; floats are not modelled.
- `Seeds.NormaliseSeed`: the default `seed=1029` of `seed_torch` (`gr.py:27`) is not modelled, and nothing in `gr.py` calls `seed_torch`, so the normalisation is modelled as a function on its own.
- Real file system access. `os.path.isfile` and `os.path.exists` become membership in two sets of paths.
- The `model_path` module is not part of this model. It is a map fixed at construction, and `BASENAME[0]` is the constructor's `firstModel`.
- The exact text of `gr.Warning`, `gr.Info` and progress messages. Each is a structured event naming its model, kind or size.
- `Manager.ModelManager.constructor`: start-up runs the first load with a pipeline that does not raise. A failure there would abort the import of `gr.py`, which is outside the manager.
- `Manager.Pipeline.ChangeLora`: after a raise, its contract says nothing about the pipeline, which may be half swapped. So after a failed swap the manager's contracts say nothing about the pipeline either.
- `Manager.Pipeline.SetHeightWidth`: after a raise, its contract keeps the model and the scheduler but says nothing about the resolution.
- Sizes that are not lists, such as the dropdown's initial scalar value `512` (`gr.py:157`). Sizes are integer lists. An empty or one-element list is modelled, as IndexError.
- `pre_check` with the default `check_type=None`, which would raise TypeError. Every caller passes a list.
- Python's set iteration order. The model enumerates the distinct sizes in order of first occurrence. The menu properties are proved for every duplicate-free enumeration.
- Concurrent calls. The host's request queue serialises calls into the manager, and the model treats them as sequential.

## Findings

| source | as written | input that shows it | evidently intended | confidence | as-written member | corrected member |
|---|---|---|---|---|---|---|
| gr.py:88-99, gr.py:102-105 | When `change_lora` succeeds and `set_height_width` then raises, the `except` branch returns the old `(current_model_name, size)` and keeps the old name. The pipeline is not swapped back, so it holds the new model while the manager names the old one. A later request for the old model takes the same-model branch, which never swaps, so generation keeps using the new model. | Start on A. Call `change_model(B, [768, 512], …)` for a complete B, with `set_height_width` raising. Then call `change_model(A, [512, 512], …)`. | The manager names the model the pipeline holds whenever the swap did not raise. | not executed | `Scenarios.ResizeFailureDesyncs` (over `Manager.ModelManager.Switch`) | `Manager.ModelManager.SwitchInSync`, used by `Scenarios.ResizeFailureStaysInSync` |

`ChangeModel` keeps modelling the code as written, so every other scenario
describes what `gr.py` does. The corrected switch stands beside it, with the
same events and the same outcomes except where the name is committed.

=== FILE: artifacts.dfy ===
/**
  The model artifacts that `ModelManager.pre_check` looks for.

  The registry `model_path` maps a model id to the four sub-paths of its
  artifacts (text encoder, UNet, VAE encoder, VAE decoder), each relative to
  `models/basic/<model id>`. The file system is a value: the set of paths that
  are regular files (what `os.path.isfile` accepts) and the set of other paths
  that exist, such as directories (what `os.path.exists` accepts as well).
*/
module Artifacts {

  type Path = string

  /** One row of the `model_path` table. */
  datatype ModelPaths = ModelPaths(encoder: Path, unet: Path, vaeDecoder: Path, vaeEncoder: Path)

  type Registry = map<string, ModelPaths>

  datatype FileSystem = FileSystem(files: set<Path>, others: set<Path>) {
    /** os.path.isfile */
    predicate IsFile(p: Path) {
      p in files
    }

    /** os.path.exists */
    predicate Exists(p: Path) {
      p in files || p in others
    }
  }

  /** The artifact kinds `check_type` may ask for. */
  datatype Kind = TextEncoder | Unet | Vae {
    /** The string that names the kind in `check_type`. */
    function Tag(): string {
      match this
      case TextEncoder => "te"
      case Unet => "unet"
      case Vae => "vae"
    }
  }

  /** The `check_type` list every caller in gr.py passes. */
  const AllKinds: seq<string> := ["te", "unet", "vae"]

  /** posixpath.join(a, b): an absolute `b` replaces `a`; otherwise one '/'
      separates them unless `a` is empty or already ends with '/'. */
  function Join(a: Path, b: Path): Path {
    if |b| > 0 && b[0] == '/' then b
    else if a == [] || a[|a| - 1] == '/' then a + b
    else a + "/" + b
  }

  /** os.path.join('models', 'basic', model): the directory under
      models/basic named by the id, or the id itself when it is absolute. */
  function ModelDir(model: string): Path {
    Join(Join("models", "basic"), model)
  }

  /** An absolute second component wins; otherwise the result starts with the
      first component and ends with the second, with one '/' between them
      exactly when the first is non-empty and does not already end in '/'. */
  lemma JoinFacts(a: Path, b: Path)
    ensures |b| > 0 && b[0] == '/' ==> Join(a, b) == b
    ensures !(|b| > 0 && b[0] == '/') ==>
      var r := Join(a, b);
      a <= r && |a| + |b| <= |r| <= |a| + 1 + |b| && r[|r| - |b|..] == b
    ensures !(|b| > 0 && b[0] == '/') ==>
      (|Join(a, b)| == |a| + |b| <==> a == [] || a[|a| - 1] == '/')
    ensures !(|b| > 0 && b[0] == '/') && |Join(a, b)| == |a| + 1 + |b| ==> Join(a, b)[|a|] == '/'
  {
  }

  /** The model directory is models/basic/<id>, or the id itself when it is an
      absolute path. */
  lemma ModelDirFacts(model: string)
    ensures |model| > 0 && model[0] == '/' ==> ModelDir(model) == model
    ensures !(|model| > 0 && model[0] == '/') ==> ModelDir(model) == "models/basic/" + model
  {
  }

  /** The paths pre_check probes for one kind of artifact of `model`. */
  function KindPaths(model: string, entry: ModelPaths, kind: Kind): seq<Path> {
    var dir := ModelDir(model);
    match kind
    case TextEncoder => [Join(dir, entry.encoder)]
    case Unet => [Join(dir, entry.unet)]
    case Vae => [Join(dir, entry.vaeEncoder), Join(dir, entry.vaeDecoder)]
  }

  /** Whether the artifact of `kind` is on disk: the encoder and the UNet must
      be regular files; for the VAE both paths need only exist. */
  predicate Present(fs: FileSystem, model: string, entry: ModelPaths, kind: Kind) {
    var ps := KindPaths(model, entry, kind);
    match kind
    case TextEncoder => fs.IsFile(ps[0])
    case Unet => fs.IsFile(ps[0])
    case Vae => fs.Exists(ps[0]) && fs.Exists(ps[1])
  }

  predicate Requested(checkType: seq<string>, kind: Kind) {
    kind.Tag() in checkType
  }

  /** A requested kind whose artifact is absent: pre_check warns about it. */
  predicate Missing(fs: FileSystem, model: string, entry: ModelPaths, checkType: seq<string>, kind: Kind) {
    Requested(checkType, kind) && !Present(fs, model, entry, kind)
  }

  /** The requested kinds that are not on disk, in the order they are checked:
      a kind is listed exactly when it was requested and is absent. */
  function MissingKinds(fs: FileSystem, model: string, entry: ModelPaths, checkType: seq<string>): (r: seq<Kind>)
    ensures |r| <= 3
    ensures TextEncoder in r <==> Missing(fs, model, entry, checkType, TextEncoder)
    ensures Unet in r <==> Missing(fs, model, entry, checkType, Unet)
    ensures Vae in r <==> Missing(fs, model, entry, checkType, Vae)
  {
    (if Missing(fs, model, entry, checkType, TextEncoder) then [TextEncoder] else []) +
    (if Missing(fs, model, entry, checkType, Unet) then [Unet] else []) +
    (if Missing(fs, model, entry, checkType, Vae) then [Vae] else [])
  }

  /** pre_check's verdict: each missing kind is reported once, and nothing is
      reported exactly when every requested kind is present. */
  lemma MissingKindsExact(fs: FileSystem, model: string, entry: ModelPaths, checkType: seq<string>)
    ensures forall i, j :: 0 <= i < j < |MissingKinds(fs, model, entry, checkType)| ==>
      MissingKinds(fs, model, entry, checkType)[i] != MissingKinds(fs, model, entry, checkType)[j]
    ensures MissingKinds(fs, model, entry, checkType) == [] <==>
      forall k: Kind :: Requested(checkType, k) ==> Present(fs, model, entry, k)
  {
  }

  /** Kinds not in `check_type` are never looked at: two file systems that agree
      on the requested kinds give the same verdict. */
  lemma OnlyRequestedKindsMatter(fs: FileSystem, fs': FileSystem, model: string, entry: ModelPaths, checkType: seq<string>)
    requires forall k: Kind :: Requested(checkType, k) ==>
      (Present(fs, model, entry, k) <==> Present(fs', model, entry, k))
    ensures MissingKinds(fs, model, entry, checkType) == MissingKinds(fs', model, entry, checkType)
  {
  }
}

=== FILE: manager.dfy ===
/**
  `ModelManager` of gr.py: which model and resolution are active, the artifact
  check before a model is loaded, and the hot swap of one model for another.

  The generation pipeline itself (`StableDiffusionPipeline`) is a collaborator
  whose internals are not part of this model: `Pipeline` records the model it
  holds, its scheduler and its working resolution, and its two mutating calls
  either succeed or raise, as the `Faults` argument of a call dictates.

  What the user sees (gr.Warning, gr.Info, progress reports) and what is
  printed to the console is kept as an append-only event log on the manager.
*/
module Manager {
  import opened Wrappers
  import opened Artifacts

  /** The scheduler choices of the interface; the first is used at start-up. */
  const Schedulers: seq<string> := ["LCM", "DDIM"]

  /** Exceptions that can arise inside change_model. */
  datatype Exception =
    | KeyError(key: string)           // model_path[model_select] for an unknown id
    | IndexError                      // size[0] or size[1] on a list shorter than two
    | PipelineError(message: string)  // raised by change_lora or set_height_width

  /** Notices shown to the user and lines printed to the console. */
  datatype Event =
    | MissingArtifact(model: string, kind: Kind)     // gr.Warning in pre_check
    | Loading(model: string, size: seq<int>)         // gr.Info before a swap
    | Progress(percent: nat)                          // progress(0.4), (0.8), (1)
    | LoadedLora(model: string, size: seq<int>)      // gr.Info after a swap
    | AlreadyLoaded(model: string, size: seq<int>)   // gr.Info when nothing is swapped
    | Printed(error: Exception)                       // print(e) on a failed swap

  /** What change_model hands back to the interface. */
  datatype Reply =
    | NoValue                                                 // the first load returns None
    | Selection(model: Option<string>, size: Option<seq<int>>) // the (model, size) pair
    | Raised(error: Exception)                                // an exception leaves the call

  /** Whether the pipeline's `change_lora` and `set_height_width` raise during
      one call, and with which message. */
  datatype Faults = Faults(swap: Option<string>, resize: Option<string>)

  /** What pre_check computes: its verdict and the warnings it emitted, or the
      exception of an unknown model id. */
  datatype CheckResult = CheckRaised(error: Exception) | Checked(pass: bool, warnings: seq<Event>)

  /** One gr.Warning per missing kind, in order. */
  function Warnings(model: string, kinds: seq<Kind>): (ws: seq<Event>)
    ensures |ws| == |kinds|
    ensures forall i :: 0 <= i < |kinds| ==> ws[i] == MissingArtifact(model, kinds[i])
  {
    if kinds == [] then [] else [MissingArtifact(model, kinds[0])] + Warnings(model, kinds[1..])
  }

  /** Warning about one more kind appends one warning. */
  lemma WarningsSnoc(model: string, kinds: seq<Kind>, k: Kind)
    ensures Warnings(model, kinds + [k]) == Warnings(model, kinds) + [MissingArtifact(model, k)]
  {
  }

  /** The events of a swap attempted after a passing pre_check: the messages of
      the try block of change_model up to the statement that raises, if any. */
  function SwapEvents(model: string, size: seq<int>, faults: Faults): seq<Event> {
    if |size| < 2 then [Printed(IndexError)]
    else
      [Loading(model, size), Progress(40)] +
      if faults.swap.Some? then [Printed(PipelineError(faults.swap.value))]
      else
        [Progress(80)] +
        if faults.resize.Some? then [Printed(PipelineError(faults.resize.value))]
        else [Progress(100), LoadedLora(model, size)]
  }

  /** The generation pipeline, as far as the manager relies on it. */
  class Pipeline {
    var model: string
    var scheduler: string
    var height: int
    var width: int

    constructor(model: string, scheduler: string, height: int, width: int)
      ensures this.model == model && this.scheduler == scheduler
      ensures this.height == height && this.width == width
    {
      this.model := model;
      this.scheduler := scheduler;
      this.height := height;
      this.width := width;
    }

    /** set_height_width(h, w): records the resolution unless it raises; a
        failed call promises nothing about the resolution. */
    method SetHeightWidth(h: int, w: int, fault: Option<string>) returns (raised: Option<string>)
      modifies this
      ensures raised == fault
      ensures model == old(model) && scheduler == old(scheduler)
      ensures fault.None? ==> height == h && width == w
    {
      if fault.None? {
        height, width := h, w;
      }
      raised := fault;
    }

    /** change_lora(name): swaps the model's weights in place unless it raises;
        after a failed swap the pipeline may be half changed, so nothing is
        promised about it. */
    method ChangeLora(name: string, fault: Option<string>) returns (raised: Option<string>)
      modifies this
      ensures raised == fault
      ensures fault.None? ==>
        model == name && scheduler == old(scheduler) && height == old(height) && width == old(width)
    {
      if fault.None? {
        model := name;
      }
      raised := fault;
    }
  }

  class ModelManager {
    /** The `model_path` table, fixed for the life of the process. */
    const registry: Registry
    var currentModelName: Option<string>
    var pipe: Pipeline?
    var size: Option<seq<int>>
    var events: seq<Event>

    /** A model name and a size are committed together, only once a pipeline
        exists, only for a registered model and only for a size that can be
        indexed twice. */
    ghost predicate Valid()
      reads this
    {
      && (currentModelName.Some? <==> size.Some?)
      && (currentModelName.Some? ==> pipe != null && currentModelName.value in registry)
      && (size.Some? ==> |size.value| >= 2)
    }

    /** The warnings pre_check emits for `model` when all kinds are requested. */
    function WarningsFor(model: string, fs: FileSystem): seq<Event>
      requires model in registry
    {
      Warnings(model, MissingKinds(fs, model, registry[model], AllKinds))
    }

    /** The verdict of pre_check for `model` when all kinds are requested. */
    predicate Complete(model: string, fs: FileSystem)
      requires model in registry
    {
      MissingKinds(fs, model, registry[model], AllKinds) == []
    }

    /** __init__: loads the first registered model at 512x512 with the first
        scheduler. */
    constructor(registry: Registry, firstModel: string, fs: FileSystem)
      requires firstModel in registry
      ensures Valid() && this.registry == registry
      ensures currentModelName == Some(firstModel) && size == Some([512, 512])
      ensures pipe != null && fresh(pipe)
      ensures pipe.model == firstModel && pipe.scheduler == Schedulers[0]
      ensures pipe.height == 512 && pipe.width == 512
      ensures events == WarningsFor(firstModel, fs)
    {
      this.registry := registry;
      currentModelName, pipe, size, events := None, null, None, [];
      new;
      var _ := ChangeModel(firstModel, [512, 512], Schedulers[0], fs, Faults(None, None));
    }

    /** pre_check(model, check_type): looks up the model's artifact paths
        (raising KeyError for an unknown id before anything is checked), then
        checks each requested kind in the order te, unet, vae, warning once per
        kind that is missing. It changes no field of the manager. */
    method PreCheck(model: string, checkType: seq<string>, fs: FileSystem) returns (result: CheckResult)
      ensures model !in registry ==> result == CheckRaised(KeyError(model))
      ensures model in registry ==>
        var missing := MissingKinds(fs, model, registry[model], checkType);
        result == Checked(missing == [], Warnings(model, missing))
    {
      if model !in registry {
        return CheckRaised(KeyError(model));
      }
      var entry := registry[model];
      var dir := ModelDir(model);
      var tePath := Join(dir, entry.encoder);
      var unetPath := Join(dir, entry.unet);
      var vaeDePath := Join(dir, entry.vaeDecoder);
      var vaeEnPath := Join(dir, entry.vaeEncoder);
      assert KindPaths(model, entry, TextEncoder) == [tePath];
      assert KindPaths(model, entry, Unet) == [unetPath];
      assert KindPaths(model, entry, Vae) == [vaeEnPath, vaeDePath];
      var checkPass := true;
      var warnings: seq<Event> := [];
      ghost var kinds: seq<Kind> := [];  // the kinds warned about so far
      if "te" in checkType {
        if !fs.IsFile(tePath) {
          WarningsSnoc(model, kinds, TextEncoder);
          warnings, kinds := warnings + [MissingArtifact(model, TextEncoder)], kinds + [TextEncoder];
          checkPass := false;
        }
      }
      if "unet" in checkType {
        if !fs.IsFile(unetPath) {
          WarningsSnoc(model, kinds, Unet);
          warnings, kinds := warnings + [MissingArtifact(model, Unet)], kinds + [Unet];
          checkPass := false;
        }
      }
      if "vae" in checkType {
        if !fs.Exists(vaeEnPath) || !fs.Exists(vaeDePath) {
          WarningsSnoc(model, kinds, Vae);
          warnings, kinds := warnings + [MissingArtifact(model, Vae)], kinds + [Vae];
          checkPass := false;
        }
      }
      assert warnings == Warnings(model, kinds);
      assert kinds == MissingKinds(fs, model, entry, checkType);
      return Checked(checkPass, warnings);
    }

    /** change_model(model_select, size, scheduler): the three branches of the
        source, one method each. */
    method ChangeModel(model: string, size: seq<int>, scheduler: string, fs: FileSystem, faults: Faults)
      returns (reply: Reply)
      requires Valid()
      modifies this, pipe
      ensures Valid()
      ensures old(pipe) == null ==> FirstLoadOutcome(model, size, scheduler, fs, faults, reply)
      ensures old(pipe) != null && old(currentModelName) != Some(model) ==>
        pipe == old(pipe) && SwitchOutcome(model, size, fs, faults, reply)
      ensures old(pipe) != null && old(currentModelName) == Some(model) ==>
        pipe == old(pipe) && SameModelOutcome(model, size, faults, reply)
    {
      if pipe == null {
        reply := FirstLoad(model, size, scheduler, fs, faults);
      } else if currentModelName != Some(model) {
        reply := Switch(model, size, fs, faults);
      } else {
        reply := SameModel(model, size, faults);
      }
    }

    /** The first call (`self.pipe is None`): pre_check runs but its verdict is
        ignored; the pipeline is built for the model regardless. An unknown id
        raises KeyError before anything changes. */
    twostate predicate FirstLoadOutcome(model: string, size: seq<int>, scheduler: string, fs: FileSystem,
                                        faults: Faults, reply: Reply)
      reads this, pipe
    {
      && (model !in registry ==>
            reply == Raised(KeyError(model)) && pipe == null &&
            currentModelName == old(currentModelName) && this.size == old(this.size) &&
            events == old(events))
      && (model in registry ==>
            && events == old(events) + WarningsFor(model, fs)
            && (|size| < 2 ==>
                  reply == Raised(IndexError) && pipe == null &&
                  currentModelName == old(currentModelName) && this.size == old(this.size))
            && (|size| >= 2 ==>
                  && pipe != null && fresh(pipe)
                  && pipe.model == model && pipe.scheduler == scheduler
                  && (faults.resize.Some? ==>
                        reply == Raised(PipelineError(faults.resize.value)) &&
                        currentModelName == old(currentModelName) && this.size == old(this.size))
                  && (faults.resize.None? ==>
                        reply == NoValue && pipe.height == size[0] && pipe.width == size[1] &&
                        currentModelName == Some(model) && this.size == Some(size))))
    }

    method FirstLoad(model: string, size: seq<int>, scheduler: string, fs: FileSystem, faults: Faults)
      returns (reply: Reply)
      requires Valid() && pipe == null
      modifies this
      ensures Valid()
      ensures FirstLoadOutcome(model, size, scheduler, fs, faults, reply)
    {
      var check := PreCheck(model, AllKinds, fs);
      if check.CheckRaised? {
        return Raised(check.error);
      }
      events := events + check.warnings;
      if |size| < 2 {
        return Raised(IndexError);
      }
      var p := new Pipeline(model, scheduler, size[0], size[1]);
      pipe := p;
      var raised := p.SetHeightWidth(size[0], size[1], faults.resize);
      if raised.Some? {
        return Raised(PipelineError(raised.value));
      }
      currentModelName := Some(model);
      this.size := Some(size);
      return NoValue;
    }

    /** A different model: gated by pre_check, then the swap. The new name and
        size are committed only after change_lora and set_height_width both
        succeed; otherwise the previous pair stays and is returned, and when
        pre_check fails change_lora is never called. An unknown id raises
        KeyError before anything changes. The pipeline is not rolled back: once
        change_lora has succeeded it holds the new model, even when
        set_height_width then raises and the manager keeps the old name. */
    twostate predicate SwitchOutcome(model: string, size: seq<int>, fs: FileSystem, faults: Faults, reply: Reply)
      reads this, pipe
      requires pipe != null && old(pipe) == pipe
    {
      && (model !in registry ==>
            reply == Raised(KeyError(model)) && unchanged(pipe) &&
            currentModelName == old(currentModelName) && this.size == old(this.size) &&
            events == old(events))
      && (model in registry ==>
            var committed := Complete(model, fs) && |size| >= 2 && faults.swap.None? && faults.resize.None?;
            && events == old(events) + WarningsFor(model, fs) +
                 (if Complete(model, fs) then SwapEvents(model, size, faults) else [])
            && (!Complete(model, fs) || |size| < 2 ==> unchanged(pipe))
            && (Complete(model, fs) && |size| >= 2 && faults.swap.None? ==>
                  pipe.model == model && pipe.scheduler == old(pipe.scheduler))
            && (committed ==>
                  reply == Selection(Some(model), Some(size)) &&
                  currentModelName == Some(model) && this.size == Some(size) &&
                  pipe.model == model && pipe.height == size[0] && pipe.width == size[1] &&
                  pipe.scheduler == old(pipe.scheduler))
            && (!committed ==>
                  reply == Selection(old(currentModelName), old(this.size)) &&
                  currentModelName == old(currentModelName) && this.size == old(this.size)))
    }

    method Switch(model: string, size: seq<int>, fs: FileSystem, faults: Faults) returns (reply: Reply)
      requires Valid() && pipe != null && currentModelName != Some(model)
      modifies this, pipe
      ensures Valid() && pipe == old(pipe)
      ensures SwitchOutcome(model, size, fs, faults, reply)
    {
      var check := PreCheck(model, AllKinds, fs);
      if check.CheckRaised? {
        return Raised(check.error);
      }
      events := events + check.warnings;
      if !check.pass {
        return Selection(currentModelName, this.size);
      }
      reply := TrySwap(model, size, faults);
    }

    /** The try block of change_model for another model: change_lora, then
        set_height_width, committing name and size only when both succeed.
        Whatever raises is printed and the previous pair is returned; the
        pipeline keeps whatever change_lora did to it. */
    method TrySwap(model: string, size: seq<int>, faults: Faults) returns (reply: Reply)
      requires Valid() && pipe != null && model in registry
      modifies this, pipe
      ensures Valid() && pipe == old(pipe)
      ensures events == old(events) + SwapEvents(model, size, faults)
      ensures |size| < 2 ==> unchanged(pipe)
      ensures |size| >= 2 && faults.swap.None? ==>
        pipe.model == model && pipe.scheduler == old(pipe.scheduler)
      ensures |size| >= 2 && faults.swap.None? && faults.resize.None? ==>
        reply == Selection(Some(model), Some(size)) &&
        currentModelName == Some(model) && this.size == Some(size) &&
        pipe.height == size[0] && pipe.width == size[1]
      ensures |size| < 2 || faults.swap.Some? || faults.resize.Some? ==>
        reply == Selection(old(currentModelName), old(this.size)) &&
        currentModelName == old(currentModelName) && this.size == old(this.size)
    {
      if |size| < 2 {
        events := events + [Printed(IndexError)];
        return Selection(currentModelName, this.size);
      }
      events := events + [Loading(model, size), Progress(40)];
      var raised := pipe.ChangeLora(model, faults.swap);
      if raised.Some? {
        events := events + [Printed(PipelineError(raised.value))];
        return Selection(currentModelName, this.size);
      }
      events := events + [Progress(80)];
      raised := pipe.SetHeightWidth(size[0], size[1], faults.resize);
      if raised.Some? {
        events := events + [Printed(PipelineError(raised.value))];
        return Selection(currentModelName, this.size);
      }
      events := events + [Progress(100), LoadedLora(model, size)];
      currentModelName := Some(model);
      this.size := Some(size);
      return Selection(Some(model), Some(size));
    }

    /** The manager's name is the model the pipeline actually holds. */
    ghost predicate InSync()
      reads this, pipe
    {
      pipe != null && currentModelName == Some(pipe.model)
    }

    /** The switch as evidently intended: the name is committed as soon as
        change_lora has put the new model into the pipeline, and the size only
        once set_height_width has succeeded too. A failing resize then leaves
        a manager that names the model the pipeline holds, at the old size.
        The events, the pipeline's state and every other outcome are those of
        `Switch`. */
    method SwitchInSync(model: string, size: seq<int>, fs: FileSystem, faults: Faults) returns (reply: Reply)
      requires Valid() && InSync() && currentModelName != Some(model)
      modifies this, pipe
      ensures Valid() && pipe == old(pipe)
      ensures faults.swap.None? ==> InSync()
      ensures model !in registry ==>
        reply == Raised(KeyError(model)) && unchanged(pipe) &&
        currentModelName == old(currentModelName) && this.size == old(this.size) && events == old(events)
      ensures model in registry ==>
        events == old(events) + WarningsFor(model, fs) +
          (if Complete(model, fs) then SwapEvents(model, size, faults) else [])
      ensures model in registry && (!Complete(model, fs) || |size| < 2) ==> unchanged(pipe)
      ensures model in registry && Complete(model, fs) && |size| >= 2 && faults.swap.None? ==>
        pipe.model == model && pipe.scheduler == old(pipe.scheduler) &&
        (faults.resize.None? ==> pipe.height == size[0] && pipe.width == size[1])
      ensures model in registry && Complete(model, fs) && |size| >= 2 && faults.swap.None? ==>
        currentModelName == Some(model) &&
        (faults.resize.None? ==> reply == Selection(Some(model), Some(size)) && this.size == Some(size)) &&
        (faults.resize.Some? ==> reply == Selection(Some(model), old(this.size)) && this.size == old(this.size))
      ensures model in registry && (!Complete(model, fs) || |size| < 2 || faults.swap.Some?) ==>
        reply == Selection(old(currentModelName), old(this.size)) &&
        currentModelName == old(currentModelName) && this.size == old(this.size)
    {
      var check := PreCheck(model, AllKinds, fs);
      if check.CheckRaised? {
        return Raised(check.error);
      }
      events := events + check.warnings;
      if !check.pass {
        return Selection(currentModelName, this.size);
      }
      reply := TrySwapInSync(model, size, faults);
    }

    /** The try block of the corrected switch: the name follows the pipeline's
        model as soon as change_lora succeeds. */
    method TrySwapInSync(model: string, size: seq<int>, faults: Faults) returns (reply: Reply)
      requires Valid() && InSync() && model in registry
      modifies this, pipe
      ensures Valid() && pipe == old(pipe)
      ensures faults.swap.None? ==> InSync()
      ensures events == old(events) + SwapEvents(model, size, faults)
      ensures |size| < 2 ==> unchanged(pipe)
      ensures |size| >= 2 && faults.swap.None? ==>
        pipe.model == model && pipe.scheduler == old(pipe.scheduler) &&
        (faults.resize.None? ==> pipe.height == size[0] && pipe.width == size[1])
      ensures |size| >= 2 && faults.swap.None? ==>
        currentModelName == Some(model) &&
        (faults.resize.None? ==> reply == Selection(Some(model), Some(size)) && this.size == Some(size)) &&
        (faults.resize.Some? ==> reply == Selection(Some(model), old(this.size)) && this.size == old(this.size))
      ensures |size| < 2 || faults.swap.Some? ==>
        reply == Selection(old(currentModelName), old(this.size)) &&
        currentModelName == old(currentModelName) && this.size == old(this.size)
    {
      if |size| < 2 {
        events := events + [Printed(IndexError)];
        return Selection(currentModelName, this.size);
      }
      events := events + [Loading(model, size), Progress(40)];
      var raised := pipe.ChangeLora(model, faults.swap);
      if raised.Some? {
        events := events + [Printed(PipelineError(raised.value))];
        return Selection(currentModelName, this.size);
      }
      currentModelName := Some(model);
      events := events + [Progress(80)];
      raised := pipe.SetHeightWidth(size[0], size[1], faults.resize);
      if raised.Some? {
        events := events + [Printed(PipelineError(raised.value))];
        return Selection(currentModelName, this.size);
      }
      events := events + [Progress(100), LoadedLora(model, size)];
      this.size := Some(size);
      return Selection(Some(model), Some(size));
    }

    /** The model already loaded: no pre_check and no swap. Only the
        pipeline's resolution moves; the manager's size is not updated, and
        the previous pair is returned. */
    twostate predicate SameModelOutcome(model: string, size: seq<int>, faults: Faults, reply: Reply)
      reads this, pipe
      requires pipe != null && old(pipe) == pipe
    {
      && currentModelName == old(currentModelName) && this.size == old(this.size)
      && events == old(events) + [AlreadyLoaded(model, size)]
      && pipe.model == old(pipe.model) && pipe.scheduler == old(pipe.scheduler)
      && (|size| < 2 ==> reply == Raised(IndexError) && unchanged(pipe))
      && (|size| >= 2 && faults.resize.Some? ==> reply == Raised(PipelineError(faults.resize.value)))
      && (|size| >= 2 && faults.resize.None? ==>
            reply == Selection(old(currentModelName), old(this.size)) &&
            pipe.height == size[0] && pipe.width == size[1])
    }

    method SameModel(model: string, size: seq<int>, faults: Faults) returns (reply: Reply)
      requires Valid() && pipe != null && currentModelName == Some(model)
      modifies this, pipe
      ensures Valid() && pipe == old(pipe)
      ensures SameModelOutcome(model, size, faults, reply)
    {
      events := events + [AlreadyLoaded(model, size)];
      if |size| < 2 {
        return Raised(IndexError);
      }
      var raised := pipe.SetHeightWidth(size[0], size[1], faults.resize);
      if raised.Some? {
        return Raised(PipelineError(raised.value));
      }
      return Selection(currentModelName, this.size);
    }
  }
}

=== FILE: scenarios.dfy ===
/**
  Sequences of calls on a fresh `ModelManager`, proved from the contracts of
  its methods alone: what a caller of gr.py's manager can rely on.
*/
module Scenarios {
  import opened Wrappers
  import opened Artifacts
  import opened Manager

  /** Start-up with a model whose UNet file is missing: pre_check warns, but
      its verdict is ignored and the model is loaded all the same. */
  method StartWithIncompleteModel(registry: Registry, a: string, fs: FileSystem)
    returns (current: Option<string>, log: seq<Event>, loaded: string)
    requires a in registry
    requires Missing(fs, a, registry[a], AllKinds, Unet)
    ensures current == Some(a) && loaded == a
    ensures MissingArtifact(a, Unet) in log
  {
    var m := new ModelManager(registry, a, fs);
    current, log, loaded := m.currentModelName, m.events, m.pipe.model;
    MissingKindsExact(fs, a, registry[a], AllKinds);
    var missing := MissingKinds(fs, a, registry[a], AllKinds);
    var k :| 0 <= k < |missing| && missing[k] == Unet;
    assert log[k] == MissingArtifact(a, Unet);
  }

  /** Start on model `a`, then ask for `b` whose UNet file is missing: the
      selection stays (a, [512, 512]), a warning names b's UNet, and the
      pipeline still holds a. */
  method SwitchToIncompleteModel(registry: Registry, a: string, b: string, fs: FileSystem)
    returns (reply: Reply, log: seq<Event>, loaded: string)
    requires a in registry && b in registry && a != b
    requires Missing(fs, b, registry[b], AllKinds, Unet)
    ensures reply == Selection(Some(a), Some([512, 512]))
    ensures MissingArtifact(b, Unet) in log
    ensures loaded == a
  {
    var m := new ModelManager(registry, a, fs);
    var before := m.events;
    reply := m.ChangeModel(b, [768, 512], Schedulers[1], fs, Faults(None, None));
    log := m.events;
    loaded := m.pipe.model;
    MissingKindsExact(fs, b, registry[b], AllKinds);
    var missing := MissingKinds(fs, b, registry[b], AllKinds);
    var k :| 0 <= k < |missing| && missing[k] == Unet;
    assert log[|before| + k] == MissingArtifact(b, Unet);
  }

  /** Start on `a`, then ask for a complete `b` while the pipeline cooperates:
      b and the new size are committed and returned, and the pipeline holds b
      at that resolution. */
  method SwitchToCompleteModel(registry: Registry, a: string, b: string, fs: FileSystem)
    returns (reply: Reply, loaded: string, height: int, width: int)
    requires a in registry && b in registry && a != b
    requires forall k: Kind :: Present(fs, b, registry[b], k)
    ensures reply == Selection(Some(b), Some([768, 512]))
    ensures loaded == b && height == 768 && width == 512
  {
    var m := new ModelManager(registry, a, fs);
    MissingKindsExact(fs, b, registry[b], AllKinds);
    reply := m.ChangeModel(b, [768, 512], Schedulers[0], fs, Faults(None, None));
    loaded, height, width := m.pipe.model, m.pipe.height, m.pipe.width;
  }

  /** Start on `a`, then ask for a complete `b` whose swap raises: the old
      selection is returned and kept, and the error is printed, not shown. */
  method SwapFailureRollsBack(registry: Registry, a: string, b: string, fs: FileSystem, message: string)
    returns (reply: Reply, current: Option<string>, kept: Option<seq<int>>, last: Event)
    requires a in registry && b in registry && a != b
    requires forall k: Kind :: Present(fs, b, registry[b], k)
    ensures reply == Selection(Some(a), Some([512, 512]))
    ensures current == Some(a) && kept == Some([512, 512])
    ensures last == Printed(PipelineError(message))
  {
    var m := new ModelManager(registry, a, fs);
    MissingKindsExact(fs, b, registry[b], AllKinds);
    reply := m.ChangeModel(b, [768, 512], Schedulers[0], fs, Faults(Some(message), None));
    current, kept := m.currentModelName, m.size;
    last := m.events[|m.events| - 1];
  }

  /** Start on `a`, switch to a complete `b` whose swap succeeds but whose
      resize raises: the manager still names a while the pipeline holds b.
      Asking for `a` again then takes the same-model branch, which never swaps,
      so the pipeline goes on generating with b. */
  method ResizeFailureDesyncs(registry: Registry, a: string, b: string, fs: FileSystem, message: string)
    returns (current: Option<string>, loaded: string, againCurrent: Option<string>, againLoaded: string)
    requires a in registry && b in registry && a != b
    requires forall k: Kind :: Present(fs, b, registry[b], k)
    ensures current == Some(a) && loaded == b
    ensures againCurrent == Some(a) && againLoaded == b
  {
    var m := new ModelManager(registry, a, fs);
    MissingKindsExact(fs, b, registry[b], AllKinds);
    var _ := m.ChangeModel(b, [768, 512], Schedulers[0], fs, Faults(None, Some(message)));
    current, loaded := m.currentModelName, m.pipe.model;
    var _ := m.ChangeModel(a, [512, 512], Schedulers[0], fs, Faults(None, None));
    againCurrent, againLoaded := m.currentModelName, m.pipe.model;
  }

  /** The same calls with the corrected switch: after the failing resize the
      manager names b, the model the pipeline holds, and keeps the old size;
      asking for `a` again is then a real switch back to a at 512x512. */
  method ResizeFailureStaysInSync(registry: Registry, a: string, b: string, fs: FileSystem, message: string)
    returns (current: Option<string>, kept: Option<seq<int>>, loaded: string,
             againCurrent: Option<string>, againLoaded: string, againHeight: int, againWidth: int)
    requires a in registry && b in registry && a != b
    requires forall k: Kind :: Present(fs, a, registry[a], k) && Present(fs, b, registry[b], k)
    ensures current == Some(b) && loaded == b && kept == Some([512, 512])
    ensures againCurrent == Some(a) && againLoaded == a && againHeight == 512 && againWidth == 512
  {
    var m := new ModelManager(registry, a, fs);
    MissingKindsExact(fs, a, registry[a], AllKinds);
    MissingKindsExact(fs, b, registry[b], AllKinds);
    var _ := m.SwitchInSync(b, [768, 512], fs, Faults(None, Some(message)));
    current, kept, loaded := m.currentModelName, m.size, m.pipe.model;
    var _ := m.SwitchInSync(a, [512, 512], fs, Faults(None, None));
    againCurrent, againLoaded := m.currentModelName, m.pipe.model;
    againHeight, againWidth := m.pipe.height, m.pipe.width;
  }

  /** Ask again for the model already loaded, at another size: the pipeline
      works at the new resolution while the manager keeps and returns the
      size it had. */
  method SameModelKeepsSize(registry: Registry, a: string, fs: FileSystem)
    returns (reply: Reply, kept: Option<seq<int>>, height: int, width: int)
    requires a in registry
    ensures reply == Selection(Some(a), Some([512, 512]))
    ensures kept == Some([512, 512])
    ensures height == 768 && width == 512
  {
    var m := new ModelManager(registry, a, fs);
    reply := m.ChangeModel(a, [768, 512], Schedulers[0], fs, Faults(None, None));
    kept, height, width := m.size, m.pipe.height, m.pipe.width;
  }
}

=== FILE: seeds.dfy ===
/**
  Seed handling in gr.py: the normalisation `seed % 4294967296` done by
  `seed_torch`, and the single seed that `generate_image_from_text` hands to
  the pipeline.

  Python's `%` rounds the quotient toward minus infinity, so for the positive
  modulus 2^32 its result lies in [0, 2^32) for every seed, negative ones
  included. For a positive divisor that is exactly Dafny's Euclidean `%`,
  which `NormaliseSeed` therefore uses as it is.
*/
module Seeds {
  import opened Wrappers

  const SeedModulus: int := 4294967296

  /** The bounds of `random.randint(0, 1000000)`, both inclusive. */
  const MinRandomSeed: int := 0
  const MaxRandomSeed: int := 1000000

  /** The seed value `seed_torch` uses: `seed % 4294967296`. */
  function NormaliseSeed(seed: int): (r: int)
    ensures 0 <= r < SeedModulus
    ensures (seed - r) % SeedModulus == 0
    ensures 0 <= seed < SeedModulus ==> r == seed
  {
    seed % SeedModulus
  }

  /** Seeds that differ by a multiple of 2^32 are normalised alike, and a
      normalised seed is its own normal form. */
  lemma NormaliseSeedPeriodic(seed: int, k: int)
    ensures NormaliseSeed(seed + k * SeedModulus) == NormaliseSeed(seed)
    ensures NormaliseSeed(NormaliseSeed(seed)) == NormaliseSeed(seed)
  {
  }

  /** The `seeds` argument of the pipeline call in generate_image_from_text:
      a one-element list holding the given seed, or, when none is given, a
      number drawn uniformly from [0, 1000000] (randint includes both ends).
      The random draw is nondeterministic here. */
  method InferenceSeeds(seed: Option<int>) returns (seeds: seq<int>)
    ensures |seeds| == 1
    ensures seed.Some? ==> seeds[0] == seed.value
    ensures seed.None? ==> MinRandomSeed <= seeds[0] <= MaxRandomSeed
  {
    var chosen: int;
    if seed.None? {
      chosen :| MinRandomSeed <= chosen <= MaxRandomSeed;
    } else {
      chosen := seed.value;
    }
    seeds := [chosen];
  }
}

=== FILE: size_menu.dfy ===
/**
  The size menu of the user interface (`create_size` in gr.py).

  `create_size(*xs)` collapses its arguments into a set, lists every square
  `(a, a)` over that set, then every ordered pair `(a, b)` of two different
  positions of the set (`itertools.permutations(set, 2)`), and labels each
  pair `"a:b"` with the value `[a, b]`.

  Python does not fix the iteration order of a set. The model enumerates the
  distinct arguments in order of first occurrence (`Dedup`); every property
  of the menu below is proved for an arbitrary duplicate-free enumeration
  (`Menu(u)` with `Distinct(u)`), so it holds whatever order Python picks.
*/
module SizeMenu {
  import opened Wrappers

  /** One entry of the menu: what the dropdown shows and the value it yields. */
  datatype SizeOption = SizeOption(text: string, value: seq<int>)

  type Pair = (int, int)

  predicate Distinct<T(==)>(s: seq<T>) {
    forall i, j :: 0 <= i < j < |s| ==> s[i] != s[j]
  }

  function Elems<T>(s: seq<T>): set<T> {
    set x | x in s
  }

  // ---------------------------------------------------------------------
  // Decimal rendering of integers (Python's str(int) as used by f-strings)
  // and its inverse.

  function DigitChar(d: nat): (c: char)
    requires d < 10
    ensures '0' <= c <= '9'
  {
    ('0' as int + d) as char
  }

  function DigitValue(c: char): int {
    c as int - '0' as int
  }

  predicate IsDigit(c: char) {
    '0' <= c <= '9'
  }

  /** Decimal digits of `n`, most significant first, no leading zeros. */
  function NatToString(n: nat): (s: string)
    ensures |s| > 0
    ensures forall k :: 0 <= k < |s| ==> IsDigit(s[k])
  {
    if n < 10 then [DigitChar(n)] else NatToString(n / 10) + [DigitChar(n % 10)]
  }

  /** `str(i)`: a minus sign for negative numbers, then the digits. */
  function IntToString(i: int): string {
    if i < 0 then "-" + NatToString(-i) else NatToString(i)
  }

  function StringToNat(s: string): int {
    if s == [] then 0 else StringToNat(s[..|s| - 1]) * 10 + DigitValue(s[|s| - 1])
  }

  function StringToInt(s: string): int {
    if |s| > 0 && s[0] == '-' then -StringToNat(s[1..]) else StringToNat(s)
  }

  lemma {:induction false} NatToStringRoundTrip(n: nat)
    ensures StringToNat(NatToString(n)) == n
  {
    if n >= 10 {
      var s := NatToString(n);
      assert s[..|s| - 1] == NatToString(n / 10);
      NatToStringRoundTrip(n / 10);
    }
  }

  lemma IntToStringRoundTrip(i: int)
    ensures StringToInt(IntToString(i)) == i
  {
    if i < 0 {
      NatToStringRoundTrip(-i);
      assert IntToString(i)[1..] == NatToString(-i);
    } else {
      NatToStringRoundTrip(i);
    }
  }

  lemma IntToStringHasNoColon(i: int)
    ensures ':' !in IntToString(i)
  {
  }

  // ---------------------------------------------------------------------
  // Labels: f"{a}:{b}" and the reading that recovers the pair.

  /** The label f"{a}:{b}" of the pair (a, b). */
  function Label(a: int, b: int): string {
    IntToString(a) + ":" + IntToString(b)
  }

  /** Index of the first ':' in `s`, or `|s|` when there is none. */
  function ColonIndex(s: string): (k: nat)
    ensures k <= |s|
    ensures k < |s| ==> s[k] == ':'
    ensures forall j :: 0 <= j < k ==> s[j] != ':'
  {
    if s == [] then 0 else if s[0] == ':' then 0 else 1 + ColonIndex(s[1..])
  }

  /** Reads a label "a:b" back into the pair (a, b); None without a colon. */
  function ParseLabel(s: string): Option<Pair> {
    var k := ColonIndex(s);
    if k == |s| then None else Some((StringToInt(s[..k]), StringToInt(s[k + 1..])))
  }

  /** The label of a pair determines the pair: reading it back gives (a, b). */
  lemma LabelRoundTrip(a: int, b: int)
    ensures ParseLabel(Label(a, b)) == Some((a, b))
  {
    var x, y := IntToString(a), IntToString(b);
    var s := Label(a, b);
    IntToStringHasNoColon(a);
    assert s[|x|] == ':';
    assert forall j :: 0 <= j < |x| ==> s[j] == x[j];
    assert ColonIndex(s) == |x|;
    assert s[..|x|] == x;
    assert s[|x| + 1..] == y;
    IntToStringRoundTrip(a);
    IntToStringRoundTrip(b);
  }

  /** Two different pairs never share a label. */
  lemma LabelInjective(a: int, b: int, c: int, d: int)
    requires Label(a, b) == Label(c, d)
    ensures a == c && b == d
  {
    LabelRoundTrip(a, b);
    LabelRoundTrip(c, d);
  }

  // ---------------------------------------------------------------------
  // The set of arguments, enumerated without duplicates.

  /** The distinct elements of `s`, in order of first occurrence. */
  function Dedup(s: seq<int>): (u: seq<int>)
    ensures Distinct(u)
    ensures Elems(u) == Elems(s)
  {
    if s == [] then []
    else
      var d := Dedup(s[..|s| - 1]);
      assert s == s[..|s| - 1] + [s[|s| - 1]];
      assert Elems(s) == Elems(s[..|s| - 1]) + {s[|s| - 1]};
      if s[|s| - 1] in d then d else d + [s[|s| - 1]]
  }

  lemma {:induction false} DistinctCardinality(u: seq<int>)
    requires Distinct(u)
    ensures |Elems(u)| == |u|
  {
    if u != [] {
      var init := u[..|u| - 1];
      assert Elems(u) == Elems(init) + {u[|u| - 1]};
      assert u[|u| - 1] !in Elems(init);
      DistinctCardinality(init);
    }
  }

  // ---------------------------------------------------------------------
  // Squares and ordered pairs.

  /** [(s, s) for s in u]: the diagonal of u x u, one square per element in
      the order of u, without repeats when u has none. */
  function Squares(u: seq<int>): (r: seq<Pair>)
    ensures |r| == |u|
    ensures forall k :: 0 <= k < |r| ==> r[k] == (u[k], u[k])
    ensures forall p: Pair :: p in r <==> p.0 in u && p.1 == p.0
    ensures Distinct(u) ==> Distinct(r)
  {
    var r := seq(|u|, k requires 0 <= k < |u| => (u[k], u[k]));
    assert forall p: Pair :: p.0 in u && p.1 == p.0 ==> p in r by {
      forall p: Pair | p.0 in u && p.1 == p.0 ensures p in r {
        var k :| 0 <= k < |u| && u[k] == p.0;
        assert r[k] == p;
      }
    }
    assert Distinct(u) ==> Distinct(r) by {
      if Distinct(u) {
        forall i, j | 0 <= i < j < |r| ensures r[i] != r[j] {
          assert r[i].0 == u[i] && r[j].0 == u[j];
        }
      }
    }
    r
  }

  /** The pairs (u[i], u[j]) for j = from, from + 1, ..., |u| - 1 with j != i. */
  function Row(u: seq<int>, i: nat, from: nat): (r: seq<Pair>)
    requires i < |u| && from <= |u|
    ensures |r| == if from <= i then |u| - from - 1 else |u| - from
    decreases |u| - from
  {
    if from == |u| then []
    else (if from == i then [] else [(u[i], u[from])]) + Row(u, i, from + 1)
  }

  /** itertools.permutations(u, 2) restricted to first positions i, i + 1, ...:
      the positions are paired, not the values, so each of the |u| - i first
      positions meets each of the other |u| - 1 positions once. */
  function Permutations2(u: seq<int>, i: nat): (r: seq<Pair>)
    requires i <= |u|
    ensures |r| == (|u| - i) * (|u| - 1)
    decreases |u| - i
  {
    if i == |u| then []
    else
      MulSucc(|u| - (i + 1), |u| - 1);
      Row(u, i, 0) + Permutations2(u, i + 1)
  }

  /** The whole list of pairs, squares first. */
  function Pairs(u: seq<int>): seq<Pair> {
    Squares(u) + Permutations2(u, 0)
  }

  function Entry(p: Pair): SizeOption {
    SizeOption(Label(p.0, p.1), [p.0, p.1])
  }

  function Menu(u: seq<int>): seq<SizeOption> {
    var ps := Pairs(u);
    seq(|ps|, k requires 0 <= k < |ps| => Entry(ps[k]))
  }

  /** create_size(*xs): n * n entries for n distinct arguments, each showing
      the label f"{a}:{b}" of its own value [a, b], a pair of arguments. */
  function CreateSize(xs: seq<int>): (r: seq<SizeOption>)
    ensures |r| == |Elems(xs)| * |Elems(xs)|
    ensures forall k :: 0 <= k < |r| ==>
      |r[k].value| == 2 && r[k].text == Label(r[k].value[0], r[k].value[1]) &&
      r[k].value[0] in xs && r[k].value[1] in xs
  {
    var u := Dedup(xs);
    DistinctCardinality(u);
    MenuFacts(u);
    assert forall x :: x in u ==> x in xs by {
      assert forall x :: x in u ==> x in Elems(u);
    }
    Menu(u)
  }

  /** SIZE, the menu the dropdown offers. */
  const DefaultSizes: seq<SizeOption> := CreateSize([512, 768])

  // ---------------------------------------------------------------------
  // Properties of the rows and of the permutations.

  /** In a duplicate-free sequence an element does not occur after itself. */
  lemma NotInSuffix(u: seq<int>, i: nat)
    requires Distinct(u) && i < |u|
    ensures u[i] !in u[i + 1..]
  {
  }

  lemma DistinctConcat<T>(a: seq<T>, b: seq<T>)
    requires Distinct(a) && Distinct(b)
    requires forall x :: x in b ==> x !in a
    ensures Distinct(a + b)
  {
    forall i, j | 0 <= i < j < |a + b| ensures (a + b)[i] != (a + b)[j] {
      if j >= |a| && i < |a| {
        assert (a + b)[j] == b[j - |a|];
        assert b[j - |a|] in b;
      }
    }
  }

  /** Row i of the permutations lists each other element once, paired after u[i]. */
  lemma {:induction false} RowFacts(u: seq<int>, i: nat, from: nat)
    requires Distinct(u) && i < |u| && from <= |u|
    ensures Distinct(Row(u, i, from))
    ensures forall p :: p in Row(u, i, from) <==> p.0 == u[i] && p.1 in u[from..] && p.1 != u[i]
    decreases |u| - from
  {
    if from < |u| {
      RowFacts(u, i, from + 1);
      assert u[from..] == [u[from]] + u[from + 1..];
      NotInSuffix(u, from);
      var head: seq<Pair> := if from == i then [] else [(u[i], u[from])];
      DistinctConcat(head, Row(u, i, from + 1));
    }
  }

  lemma MulSucc(a: int, b: int)
    ensures (a + 1) * b == b + a * b
  {
  }

  lemma {:induction false} Permutations2Members(u: seq<int>, i: nat)
    requires Distinct(u) && i <= |u|
    ensures forall p :: p in Permutations2(u, i) <==> p.0 in u[i..] && p.1 in u && p.0 != p.1
    decreases |u| - i
  {
    if i < |u| {
      RowFacts(u, i, 0);
      Permutations2Members(u, i + 1);
      assert u[0..] == u;
      assert u[i..] == [u[i]] + u[i + 1..];
    }
  }

  lemma {:induction false} Permutations2Distinct(u: seq<int>, i: nat)
    requires Distinct(u) && i <= |u|
    ensures Distinct(Permutations2(u, i))
    decreases |u| - i
  {
    if i < |u| {
      RowFacts(u, i, 0);
      Permutations2Members(u, i + 1);
      Permutations2Distinct(u, i + 1);
      NotInSuffix(u, i);
      DistinctConcat(Row(u, i, 0), Permutations2(u, i + 1));
    }
  }

  /** The pairs list: n squares, then the n * (n - 1) off-diagonal pairs, every
      pair over the elements exactly once. */
  lemma PairsFacts(u: seq<int>)
    requires Distinct(u)
    ensures |Pairs(u)| == |u| * |u|
    ensures Distinct(Pairs(u))
    ensures forall k :: 0 <= k < |u| ==> Pairs(u)[k] == (u[k], u[k])
    ensures forall k :: |u| <= k < |Pairs(u)| ==> Pairs(u)[k].0 != Pairs(u)[k].1
    ensures forall p :: p in Pairs(u) <==> p.0 in u && p.1 in u
  {
    Permutations2Members(u, 0);
    Permutations2Distinct(u, 0);
    assert u[0..] == u;
    var sq, pm := Squares(u), Permutations2(u, 0);
    DistinctConcat(sq, pm);
    forall k | |u| <= k < |Pairs(u)| ensures Pairs(u)[k].0 != Pairs(u)[k].1 {
      assert Pairs(u)[k] == pm[k - |u|] && pm[k - |u|] in pm;
    }
    MulSucc(|u| - 1, |u|);
    forall p: Pair | p.0 in u && p.1 in u ensures p in Pairs(u) {
      if p.0 == p.1 {
        assert p in sq;
      } else {
        assert p in pm;
      }
    }
  }

  // ---------------------------------------------------------------------
  // The menu.

  /** Every entry of a menu shows the label f"{a}:{b}" of its own value [a, b];
      the first |u| entries are the squares, the rest the off-diagonal pairs;
      every pair over the elements appears exactly once; n * n entries. */
  lemma MenuFacts(u: seq<int>)
    requires Distinct(u)
    ensures |Menu(u)| == |u| * |u|
    ensures forall k :: 0 <= k < |Menu(u)| ==>
      var e := Menu(u)[k];
      |e.value| == 2 && e.text == Label(e.value[0], e.value[1]) &&
      e.value[0] in u && e.value[1] in u &&
      (k < |u| <==> e.value[0] == e.value[1])
    ensures forall k :: 0 <= k < |u| ==> Menu(u)[k].value == [u[k], u[k]]
    ensures forall a, b :: a in u && b in u ==> exists k :: 0 <= k < |Menu(u)| && Menu(u)[k].value == [a, b]
    ensures forall i, j :: 0 <= i < j < |Menu(u)| ==> Menu(u)[i].value != Menu(u)[j].value
    ensures forall i, j :: 0 <= i < j < |Menu(u)| ==> Menu(u)[i].text != Menu(u)[j].text
  {
    PairsFacts(u);
    var ps, m := Pairs(u), Menu(u);
    forall k | 0 <= k < |m|
      ensures var e := m[k]; e.value[0] in u && e.value[1] in u && (k < |u| <==> e.value[0] == e.value[1])
    {
      assert ps[k] in ps;
    }
    forall a, b | a in u && b in u ensures exists k :: 0 <= k < |m| && m[k].value == [a, b] {
      assert (a, b) in ps;
      var k :| 0 <= k < |ps| && ps[k] == (a, b);
      assert m[k].value == [a, b];
    }
    forall i, j | 0 <= i < j < |m| ensures m[i].value != m[j].value && m[i].text != m[j].text {
      assert ps[i] != ps[j];
      if m[i].text == m[j].text {
        LabelInjective(ps[i].0, ps[i].1, ps[j].0, ps[j].1);
      }
    }
  }

  /** create_size over n distinct arguments lists the n squares first; each
      ordered pair over the arguments appears exactly once and only those pairs
      appear; every label reads back to its entry's value. */
  lemma CreateSizeFacts(xs: seq<int>)
    ensures forall e :: e in CreateSize(xs) ==>
      |e.value| == 2 && ParseLabel(e.text) == Some((e.value[0], e.value[1]))
    ensures forall k :: 0 <= k < |CreateSize(xs)| ==>
      (k < |Elems(xs)| <==> CreateSize(xs)[k].value[0] == CreateSize(xs)[k].value[1])
    ensures forall a, b :: a in xs && b in xs <==> exists k :: 0 <= k < |CreateSize(xs)| && CreateSize(xs)[k].value == [a, b]
    ensures forall i, j :: 0 <= i < j < |CreateSize(xs)| ==> CreateSize(xs)[i].value != CreateSize(xs)[j].value
  {
    var u := Dedup(xs);
    DistinctCardinality(u);
    MenuFacts(u);
    var m := CreateSize(xs);
    forall e | e in m ensures |e.value| == 2 && ParseLabel(e.text) == Some((e.value[0], e.value[1])) {
      LabelRoundTrip(e.value[0], e.value[1]);
    }
    forall a, b | (exists k :: 0 <= k < |m| && m[k].value == [a, b]) ensures a in xs && b in xs {
      var k :| 0 <= k < |m| && m[k].value == [a, b];
      assert a in Elems(u) && b in Elems(u);
    }
    forall a, b | a in xs && b in xs ensures exists k :: 0 <= k < |m| && m[k].value == [a, b] {
      assert a in Elems(xs) && b in Elems(xs);
    }
  }

  /** Repeating an argument does not change the menu: duplicates collapse. */
  lemma CreateSizeIgnoresRepeats(xs: seq<int>, x: int)
    requires x in xs
    ensures CreateSize(xs + [x]) == CreateSize(xs)
  {
    var s := xs + [x];
    assert s[..|s| - 1] == xs;
    assert x in Elems(Dedup(xs));
  }

  /** The distinct values of (512, 768) in order, and their ordered pairs. */
  lemma DefaultPairs()
    ensures Dedup([512, 768]) == [512, 768]
    ensures Pairs([512, 768]) == [(512, 512), (768, 768), (512, 768), (768, 512)]
  {
    assert [512, 768][..1] == [512] && [512][..0] == [];
    assert Dedup([512]) == [512];
    var u := [512, 768];
    assert Row(u, 0, 0) == [(512, 768)];
    assert Row(u, 1, 0) == [(768, 512)];
  }

  /** The labels of the four pairs over 512 and 768. */
  lemma DefaultLabels()
    ensures Label(512, 512) == "512:512" && Label(768, 768) == "768:768"
    ensures Label(512, 768) == "512:768" && Label(768, 512) == "768:512"
  {
    assert IntToString(512) == "512" by {
      assert NatToString(51) == "51";
    }
    assert IntToString(768) == "768" by {
      assert NatToString(76) == "76";
    }
  }

  /** The dropdown's menu, SIZE = create_size(512, 768). */
  lemma DefaultSizesLabels()
    ensures DefaultSizes == [
      SizeOption("512:512", [512, 512]), SizeOption("768:768", [768, 768]),
      SizeOption("512:768", [512, 768]), SizeOption("768:512", [768, 512])]
  {
    DefaultPairs();
    DefaultLabels();
    var ps := Pairs([512, 768]);
    assert DefaultSizes == Menu([512, 768]);
    assert Menu([512, 768]) == [Entry(ps[0]), Entry(ps[1]), Entry(ps[2]), Entry(ps[3])];
  }
}

=== FILE: wrappers.dfy ===
/** Optional values, used for Python's `None` and for partial parses. */
module Wrappers {

  datatype Option<+T> = None | Some(value: T)

}
